=== FILE: README.md ===
# Reversible variable store with undo/redo history

A small web service keeps a store of named string variables. Clients
`set`, `unset` and `get` a variable, count the variables holding a value
(`numequalto`), `list` them all, and `end` the session, which clears
everything. Every `set` and `unset` records a command that carries the
name, the value the name held before (`prev`, none if it was absent) and,
for a `set`, the value installed (`curr`). The commands live on two stacks,
most recent last. `undo` pops the undo stack, writes `prev` back (or deletes
the name) and pushes the command onto the redo stack. `redo` pops the redo
stack, writes `curr` again (or deletes the name) and pushes the command back
onto the undo stack. A new `set` or `unset` empties the redo stack. An
`undo` or `redo` whose stack is empty answers NO COMMANDS and changes nothing.

The Dafny project models this engine without the web framework and the
cloud datastore around it:

- `wrappers.dfy`: `Option` and `Result`.
- `requests.dfy`: the validation faults. `Given` is "present and not
  empty". This is how `get`, `unset` and `set` test a name, and how
  `numequalto` tests its value. `set` tests its value only for presence.
- `variables.dfy`: the store as a `map<string, string>`, with point lookup,
  put/delete (`Assign`) and the equality count.
- `queries.dfy`: the read-only handlers `get`, `numequalto` and `list`, as
  functions over the map.
- `commands.dfy`: the closed `Command` datatype, what applying (`Redone`)
  and reverting (`Undone`) one command does to the store, and the lemmas
  that these two are inverse. Both are a single `Assign`: a put, or a delete
  when the value to leave is none.
- `history.dfy`: the engine as a state machine over values
  (`Store(vars, undo, redo)`), and the invariant `Coherent`. Coherence
  means the undo stack replayed from an origin gives the current variables,
  every command was recorded against the store just before it, and the redo
  stack continues that timeline. The module proves that every operation keeps
  the invariant. It also proves that one undo is reversed by a redo and vice
  versa, and that after any sequence of `set`/`unset` requests, `k` undos give
  back the variables from before the last `k` requests and `k` redos then
  restore the whole state.
- `engine.dfy`: the class `VariableStore`. It has a `map` field and two
  `seq<Command>` fields. Its methods `Set`, `Unset`, `Undo`, `Redo` and `End`
  update them in place, following the handlers' branches. Each method is
  proved to perform the matching `History` transition and to keep the
  coherence invariant, tracked through the ghost field `origin`.
- `scenarios.dfy`: clients of `VariableStore` that follow the request
  sequences of `test_app.py` and state the replies those tests expect.
  Some go beyond the tests. `UndoRedoAfterEnd` sets a variable before `end`
  and also checks `redo`. `RedoAfterNewSet` also reads z back with `get`.
  `Rejections` has no counterpart among the tests: it exercises the
  validation of main.py:18, 53 and 70.

`set` rejects only a missing value (main.py:18), so an empty string is
stored. `numequalto` rejects an empty value (main.py:101), so a variable set
to the empty string cannot be counted. The model keeps both.

As in the code, an `unset` of a name that was never set still records an
UNSET command and empties the redo stack.

## Model

| member | source | states |
|---|---|---|
| Requests.Given | main.py:53 | An argument passes the `not name` / `not value` test exactly when it is present and not the empty string |
| Variables.Lookup | main.py:21-23 | The value read before a write is present exactly when the name has an entry, and it is then that entry's value; absent means none |
| Variables.Holding | main.py:104-107 | The names the equality query returns are exactly those whose current value is the queried one |
| Variables.Assign | main.py:21-27 | After a put the name holds the new value; after a delete the name is absent; every other name keeps its value |
| Variables.Count | main.py:104-109 | The count of a value is at most the number of variables, and it is zero exactly when no variable holds that value |
| Variables.CountAssign | main.py:104-109 | One put or delete changes a value's count by exactly the written name leaving (it held the value) and joining (it now holds it) |
| Queries.Get | main.py:49-64 | Rejected with MissingName exactly when the name is missing or empty; otherwise Some(v) exactly when the name holds v, and None when it is unset |
| Queries.NumEqualTo | main.py:97-109 | Rejected with MissingValue exactly when the value is missing or empty; otherwise a count no larger than the store, zero exactly when no variable holds the value |
| Queries.List | main.py:213-219 | The listing holds exactly the store's entries: every name, the empty one included, has the same value (or is absent) in both; it agrees with `get` on every valid name |
| Commands.Redone | main.py:179-186 | Redoing a SET leaves its name holding `curr`; redoing an UNSET leaves its name absent; other names are untouched |
| Commands.Undone | main.py:128-149 | Undoing a command leaves its name holding `prev`, or absent when `prev` is none, for both SET and UNSET; other names are untouched |
| Commands.UndoneInvertsRedone | main.py:128-149 | Undoing a command right after applying it to the store it was recorded against gives that store back exactly |
| Commands.RedoneAfterUndone | main.py:179-186 | Redoing a command after undoing it gives the same store as applying it |
| History.Record | main.py:30-45 | Performing a new command leaves its name holding what the command installs and every other name unchanged; the command is pushed on top of the undo stack, and the redo stack is emptied |
| History.SetVar | main.py:21-45 | The name holds the new value and every other entry is unchanged; exactly one SET(name, previous value or none, value) is appended to the undo stack; the redo stack is emptied |
| History.UnsetVar | main.py:73-93 | The name is absent and every other entry is unchanged, whether or not the name was set; exactly one UNSET(name, previous value or none) is appended; the redo stack is emptied |
| History.Undo | main.py:113-161 | With an empty undo stack nothing changes. Otherwise the top command leaves the undo stack and becomes the top of the redo stack; the rest of both stacks is untouched; its name gets `prev` back; other names are unchanged |
| History.Redo | main.py:165-197 | With an empty redo stack nothing changes. Otherwise the top command moves back onto the undo stack; its name gets `curr` (SET) or is deleted (UNSET); other names are unchanged |
| History.End | main.py:199-211 | No variable is left, and `undo` and `redo` afterwards change nothing, as on a fresh instance |
| History.FreshCoherent | main.py:228-237 | A fresh instance (no variables, empty stacks) satisfies the history invariant |
| History.RecordKeepsCoherent | main.py:30-45 | Pushing a command recorded against the current store and emptying the redo stack keeps the invariant |
| History.SetVarKeepsCoherent | main.py:21-45 | `set` keeps the history invariant |
| History.UnsetVarKeepsCoherent | main.py:73-93 | `unset` keeps the history invariant |
| History.UndoKeepsCoherent | main.py:120-159 | `undo` keeps the invariant, and the variables become exactly those before the undone command was first applied |
| History.RedoKeepsCoherent | main.py:172-195 | `redo` keeps the invariant |
| History.RedoAfterUndo | main.py:163-197 | On a coherent state, `redo` right after a successful `undo` restores the whole state, stacks included |
| History.UndoAfterRedo | main.py:111-161 | On a coherent state, `undo` right after a successful `redo` restores the whole state, stacks included |
| History.UndoRedoMoveCommands | main.py:121-194 | `undo` and `redo` keep the multiset of commands across both stacks; a command is moved, never copied or lost |
| History.UndoTimesRewinds | main.py:111-161 | `k` undos (k at most the undo stack's size) keep the invariant, drop the last `k` commands, and leave the variables as they were before those commands |
| History.RedoTimesAfterUndoTimes | main.py:163-197 | `k` redos after `k` undos restore the whole state |
| History.MutateAllKeepsCoherent | main.py:42-45 | Any sequence of `set`/`unset` requests keeps the invariant and leaves the redo stack empty |
| History.MutateAllUndoPrefix | main.py:34-40 | Each request pushes exactly one command, so the undo stack after a prefix of the requests is a prefix of the final one |
| History.UndoLastMutations | test_app.py:36-45 | After any sequence of `set`/`unset` requests, `k` undos give back the variables from before the last `k` requests, and `k` redos then restore the state after them |
| History.UndoLastMutationsFromFresh | test_app.py:36-45 | The same, starting from a fresh instance |
| History.MutationBlocksRedo | main.py:42-45 | After a new `set` or `unset`, `redo` changes nothing |
| Engine.VariableStore.constructor | main.py:228-237 | A new instance has no variables and empty stacks, and it satisfies the history invariant |
| Engine.VariableStore.Set | main.py:13-47 | Without a non-empty name or without a value: rejected and nothing changes. Otherwise: replies `name = value`, performs `History.SetVar` in place and keeps the invariant |
| Engine.VariableStore.Unset | main.py:66-95 | Without a non-empty name: rejected and nothing changes. Otherwise: replies `name = None`, performs `History.UnsetVar` in place and keeps the invariant |
| Engine.VariableStore.Undo | main.py:111-161 | Performs `History.Undo` in place; replies NO COMMANDS on an empty undo stack, otherwise the undone name and its new current value |
| Engine.VariableStore.Redo | main.py:163-197 | Performs `History.Redo` in place; replies NO COMMANDS on an empty redo stack, otherwise the redone name and its new current value |
| Engine.VariableStore.End | main.py:199-211 | Clears the variables and both stacks, replies CLEANED, and leaves the invariant holding |
| Scenarios.SetThenGet | test_app.py:9-17 | `set testvar 42` replies `testvar = 42`, and `get testvar` then gives 42 |
| Scenarios.SetUnsetGet | test_app.py:19-27 | `unset toDelete` after a `set` replies `toDelete = None`, and `get` then gives None |
| Scenarios.CountTwo | test_app.py:29-34 | After `set a 10` and `set b 10`, `numequalto 10` gives 2 |
| Scenarios.UndoThenRedo | test_app.py:36-45 | After `set x 100` and `unset x`, `undo` replies `x = 100` and `redo` replies `x = None` |
| Scenarios.UndoRedoAfterEnd | test_app.py:47-52 | After `end`, both `undo` and `redo` reply NO COMMANDS |
| Scenarios.RedoAfterNewSet | test_app.py:54-61 | `set z 1`, `undo`, `set z 999`: then `redo` replies NO COMMANDS and z stays 999 |
| Scenarios.Rejections | main.py:18-71 | An empty name for `set`, a missing name for `unset` and an empty name for `get` are rejected with the matching fault |

## Left out

- The web framework: routing, the `hello` endpoint (main.py:9-11), reading
  query arguments and the HTTP status codes (main.py:222-226). Arguments
  become `Option<string>` parameters, and replies become the `Reply` and
  `Result` datatypes. `Rejected` and `Failure` stand for the 400 status;
  everything else stands for 200.
- The cloud datastore client and its keys, entities, queries and batch
  delete. It is a networked foreign library, so the store is a
  `map<string, string>` field. Backing-store failures are not modelled.
- History.UndoLastMutations, Engine.VariableStore.Set and
  Engine.VariableStore.Unset: the model's undo and redo stacks hold any
  number of commands, so the theorem covers request sequences of any length.
  The code keeps each stack as one JSON string property of the history
  entity (main.py:43-44, 91-92), created without `exclude_from_indexes`
  (main.py:233), so the property is indexed. If the datastore refuses an
  indexed string longer than 1500 bytes, the history is bounded to a few
  dozen commands. Past that bound, `save_history` (main.py:45, 93) fails
  after the variable was already written (main.py:27, 78). The variable then
  changes while no command is recorded, a state the coherence invariant
  rules out, and later undos restore values from older commands. `undo` and
  `redo` can fail the same way when the stack they grow passes the limit.
  A `set` whose value itself exceeds the limit fails at main.py:27 before
  anything changes. The datastore's limits are part of the foreign client
  and service, so the model does not capture this bound or these partial
  failures.
- Queries.NumEqualTo: the model takes the query at main.py:105-107 to
  select exactly the variables whose value equals the argument, as the
  comment at main.py:104 describes, and counts them. The call passes the
  plain tuple `("value", "=", value)` through the `filter=` keyword of the
  datastore client, a foreign library that is not part of this model, so
  whether that call form applies the equality filter (rather than being
  ignored, so that every variable is counted, or raising) is not shown.
- The JSON encoding of the stacks inside the history entity. The stacks are
  native `seq<Command>` values.
- Concurrency. Each handler is modelled as one atomic step. In the code, the
  variable write and the history write are separate datastore calls with no
  lock, so concurrent requests can interleave them. The model does not
  capture that.
- The exact reply texts. `name = value` becomes `Assigned(name, value)`, and
  an absent value is `None`. NO COMMANDS and CLEANED become constructors.
  `get` returns an `Option<string>` instead of the text "None", and
  `numequalto` returns a `nat` instead of its decimal text.
- The "Unsupported command" branches of undo and redo (main.py:150-151,
  187-188). The closed `Command` datatype makes them unreachable.
- The lazy creation of the history entity (`get_history`, main.py:228-237)
  and the deletion of it by `end`. Both are modelled as "the stacks start
  empty": by the constructor and by `End`.

=== FILE: commands.dfy ===
/**
 * Command records. Every mutation records which name it touched and the
 * value that name had just before (`prev`, None when it had no entry);
 * a SET also records the value it installed. A closed datatype leaves no
 * room for an unrecognised command kind.
 */
module Commands {
  import opened Wrappers
  import opened Variables

  datatype Command =
    | Set(name: string, prev: Option<string>, curr: string)
    | Unset(name: string, prev: Option<string>)

  /** The value a command leaves under its name when it is applied. */
  function Installed(c: Command): Option<string>
  {
    match c
    case Set(_, _, curr) => Some(curr)
    case Unset(_, _) => None
  }

  /** Applies a command again (redo): a SET puts `curr`, an UNSET deletes the name. */
  function Redone(vars: Vars, c: Command): (r: Vars)
    ensures Lookup(r, c.name) == Installed(c)
    ensures forall other :: other != c.name ==> Lookup(r, other) == Lookup(vars, other)
  {
    Assign(vars, c.name, Installed(c))
  }

  /**
   * Reverts a command (undo): `prev` is put back, or the name is deleted
   * when the command found it absent. For a SET the delete removes the
   * variable it created; for an UNSET it removes nothing.
   */
  function Undone(vars: Vars, c: Command): (r: Vars)
    ensures Lookup(r, c.name) == c.prev
    ensures forall other :: other != c.name ==> Lookup(r, other) == Lookup(vars, other)
  {
    Assign(vars, c.name, c.prev)
  }

  /** `c` was recorded against `vars`: its `prev` is what `vars` holds under its name. */
  predicate RecordedAgainst(c: Command, vars: Vars)
  {
    c.prev == Lookup(vars, c.name)
  }

  /** Undoing a command right after applying it gives back the store it was recorded against. */
  lemma UndoneInvertsRedone(vars: Vars, c: Command)
    requires RecordedAgainst(c, vars)
    ensures Undone(Redone(vars, c), c) == vars
  {
    LookupExtensional(Undone(Redone(vars, c), c), vars);
  }

  /** Redoing a command after undoing it gives the store the command produced. */
  lemma RedoneAfterUndone(vars: Vars, c: Command)
    ensures Redone(Undone(vars, c), c) == Redone(vars, c)
  {
    LookupExtensional(Redone(Undone(vars, c), c), Redone(vars, c));
  }

  /** Applying the same command twice in a row is applying it once. */
  lemma RedoneIdempotent(vars: Vars, c: Command)
    ensures Redone(Redone(vars, c), c) == Redone(vars, c)
  {
    LookupExtensional(Redone(Redone(vars, c), c), Redone(vars, c));
  }
}

=== FILE: engine.dfy ===
/**
 * The request handlers that change state, as methods of one object that
 * owns the variable store and the command history. Each method performs
 * the matching transition of module History in place and keeps the
 * history on one coherent timeline.
 */
module Engine {
  import opened Wrappers
  import opened Requests
  import opened Variables
  import opened Commands
  import History

  /** What a state-changing request reports back. */
  datatype Reply =
    | Assigned(name: string, value: Option<string>)  // "<name> = <value>"; None when the name is unset
    | NoCommands                                      // undo or redo found its stack empty
    | Cleaned                                         // end
    | Rejected(fault: Fault)                          // validation failed; nothing changed

  class VariableStore {
    var vars: Vars
    var undoStack: seq<Command>  // most recent command last
    var redoStack: seq<Command>  // most recently undone command last
    /** The variables before the oldest command on the undo stack. */
    ghost var origin: Vars

    function Snapshot(): History.Store
      reads this
    {
      History.Store(vars, undoStack, redoStack)
    }

    ghost predicate Valid()
      reads this
    {
      History.Coherent(Snapshot(), origin)
    }

    /** A fresh instance: no variables and both stacks empty. */
    constructor ()
      ensures Valid() && Snapshot() == History.Fresh
    {
      vars, undoStack, redoStack := map[], [], [];
      origin := map[];
    }

    /**
     * `set`: rejected without a non-empty name or without a value (an empty
     * value is accepted); otherwise installs the value, records a SET with
     * the previous value and empties the redo stack.
     */
    method Set(name: Option<string>, value: Option<string>) returns (reply: Reply)
      requires Valid()
      modifies this
      ensures Valid()
      ensures Given(name) && value.Some? ==>
        && reply == Assigned(name.value, value)
        && Snapshot() == History.SetVar(old(Snapshot()), name.value, value.value)
      ensures !(Given(name) && value.Some?) ==>
        reply == Rejected(MissingNameOrValue) && Snapshot() == old(Snapshot())
    {
      if !Given(name) || value.None? {
        return Rejected(MissingNameOrValue);
      }
      var n, v := name.value, value.value;
      var prev := Lookup(vars, n);  // the value before the update
      vars := vars[n := v];
      undoStack := undoStack + [Command.Set(n, prev, v)];
      redoStack := [];
      History.SetVarKeepsCoherent(old(Snapshot()), origin, n, v);
      reply := Assigned(n, value);
    }

    /**
     * `unset`: rejected without a non-empty name; otherwise deletes the
     * variable (whether or not it exists), records an UNSET with the
     * previous value and empties the redo stack.
     */
    method Unset(name: Option<string>) returns (reply: Reply)
      requires Valid()
      modifies this
      ensures Valid()
      ensures Given(name) ==>
        reply == Assigned(name.value, None) && Snapshot() == History.UnsetVar(old(Snapshot()), name.value)
      ensures !Given(name) ==>
        reply == Rejected(MissingName) && Snapshot() == old(Snapshot())
    {
      if !Given(name) {
        return Rejected(MissingName);
      }
      var n := name.value;
      var prev := Lookup(vars, n);  // the value before the delete
      vars := vars - {n};
      undoStack := undoStack + [Command.Unset(n, prev)];
      redoStack := [];
      History.UnsetVarKeepsCoherent(old(Snapshot()), origin, n);
      reply := Assigned(n, None);
    }

    /**
     * `undo`: NO COMMANDS when the undo stack is empty; otherwise pops the
     * last command, restores its previous value and pushes it onto the redo
     * stack, reporting the name's new current value.
     */
    method Undo() returns (reply: Reply)
      requires Valid()
      modifies this
      ensures Valid()
      ensures Snapshot() == History.Undo(old(Snapshot()))
      ensures old(undoStack) == [] ==> reply == NoCommands
      ensures old(undoStack) != [] ==>
        var c := old(undoStack)[|old(undoStack)| - 1];
        reply == Assigned(c.name, Lookup(vars, c.name))
    {
      if undoStack == [] {
        return NoCommands;
      }
      var c := undoStack[|undoStack| - 1];
      undoStack := undoStack[..|undoStack| - 1];
      match c {
        case Set(n, prev, _) =>
          if prev.None? {
            vars := vars - {n};  // the SET created the variable
            reply := Assigned(n, None);
          } else {
            vars := vars[n := prev.value];
            reply := Assigned(n, prev);
          }
        case Unset(n, prev) =>
          if prev.Some? {
            vars := vars[n := prev.value];
            reply := Assigned(n, prev);
          } else {
            vars := vars - {n};  // the UNSET found nothing to remove
            reply := Assigned(n, None);
          }
      }
      redoStack := redoStack + [c];
      History.UndoKeepsCoherent(old(Snapshot()), origin);
    }

    /**
     * `redo`: NO COMMANDS when the redo stack is empty; otherwise pops the
     * last undone command, applies it again and pushes it back onto the
     * undo stack, reporting the name's new current value.
     */
    method Redo() returns (reply: Reply)
      requires Valid()
      modifies this
      ensures Valid()
      ensures Snapshot() == History.Redo(old(Snapshot()))
      ensures old(redoStack) == [] ==> reply == NoCommands
      ensures old(redoStack) != [] ==>
        var c := old(redoStack)[|old(redoStack)| - 1];
        reply == Assigned(c.name, Lookup(vars, c.name))
    {
      if redoStack == [] {
        return NoCommands;
      }
      var c := redoStack[|redoStack| - 1];
      redoStack := redoStack[..|redoStack| - 1];
      match c {
        case Set(n, _, curr) =>
          vars := vars[n := curr];
          reply := Assigned(n, Some(curr));
        case Unset(n, _) =>
          vars := vars - {n};
          reply := Assigned(n, None);
      }
      undoStack := undoStack + [c];
      History.RedoKeepsCoherent(old(Snapshot()), origin);
    }

    /** `end`: deletes every variable and the whole history. */
    method End() returns (reply: Reply)
      modifies this
      ensures Valid()
      ensures Snapshot() == History.End(old(Snapshot()))
      ensures reply == Cleaned
    {
      vars := map[];
      undoStack, redoStack := [], [];
      origin := map[];
      reply := Cleaned;
    }
  }
}

=== FILE: history.dfy ===
/**
 * The history engine as a state machine over values: the variable store
 * together with the undo and redo stacks (most recent command last).
 * The class in module Engine performs these same transitions in place.
 */
module History {
  import opened Wrappers
  import opened Variables
  import opened Commands

  datatype Store = Store(vars: Vars, undo: seq<Command>, redo: seq<Command>)

  /** A fresh instance: no variables, both stacks empty. */
  const Fresh := Store(map[], [], [])

  /**
   * Performs a newly recorded command: the store changes, the command is
   * pushed onto the undo stack and the redo stack is replaced by an empty one.
   */
  function Record(s: Store, c: Command): (r: Store)
    ensures Lookup(r.vars, c.name) == Installed(c)
    ensures forall other :: other != c.name ==> Lookup(r.vars, other) == Lookup(s.vars, other)
    ensures r.undo == s.undo + [c] && r.redo == []
  {
    Store(Redone(s.vars, c), s.undo + [c], [])
  }

  /** `set name value` on a valid request. */
  function SetVar(s: Store, name: string, value: string): (r: Store)
    ensures Lookup(r.vars, name) == Some(value)
    ensures forall other :: other != name ==> Lookup(r.vars, other) == Lookup(s.vars, other)
    ensures r.undo == s.undo + [Set(name, Lookup(s.vars, name), value)]
    ensures r.redo == []
  {
    Record(s, Set(name, Lookup(s.vars, name), value))
  }

  /** `unset name` on a valid request; it succeeds whether or not `name` was set. */
  function UnsetVar(s: Store, name: string): (r: Store)
    ensures Lookup(r.vars, name) == None
    ensures forall other :: other != name ==> Lookup(r.vars, other) == Lookup(s.vars, other)
    ensures r.undo == s.undo + [Unset(name, Lookup(s.vars, name))]
    ensures r.redo == []
  {
    Record(s, Unset(name, Lookup(s.vars, name)))
  }

  /**
   * `undo`: with an empty undo stack nothing changes; otherwise the top
   * command is reverted and moved onto the redo stack.
   */
  function Undo(s: Store): (r: Store)
    ensures s.undo == [] ==> r == s
    ensures s.undo != [] ==>
      var c := s.undo[|s.undo| - 1];
      && r.undo == s.undo[..|s.undo| - 1]
      && r.redo == s.redo + [c]
      && Lookup(r.vars, c.name) == c.prev
      && (forall other :: other != c.name ==> Lookup(r.vars, other) == Lookup(s.vars, other))
  {
    if s.undo == [] then s
    else
      var c := s.undo[|s.undo| - 1];
      Store(Undone(s.vars, c), s.undo[..|s.undo| - 1], s.redo + [c])
  }

  /**
   * `redo`: with an empty redo stack nothing changes; otherwise the top
   * command is applied again and moved back onto the undo stack.
   */
  function Redo(s: Store): (r: Store)
    ensures s.redo == [] ==> r == s
    ensures s.redo != [] ==>
      var c := s.redo[|s.redo| - 1];
      && r.redo == s.redo[..|s.redo| - 1]
      && r.undo == s.undo + [c]
      && Lookup(r.vars, c.name) == Installed(c)
      && (forall other :: other != c.name ==> Lookup(r.vars, other) == Lookup(s.vars, other))
  {
    if s.redo == [] then s
    else
      var c := s.redo[|s.redo| - 1];
      Store(Redone(s.vars, c), s.undo + [c], s.redo[..|s.redo| - 1])
  }

  /** `end`: every variable and both stacks are dropped. */
  function End(s: Store): (r: Store)
    ensures forall name :: Lookup(r.vars, name) == None
    ensures Undo(r) == r && Redo(r) == r
  {
    Fresh
  }

  // ---------------------------------------------------------------------
  // The timeline invariant

  /** The store reached from `base` by applying `cs` in order. */
  function Replay(base: Vars, cs: seq<Command>): Vars
  {
    if cs == [] then base
    else Redone(Replay(base, cs[..|cs| - 1]), cs[|cs| - 1])
  }

  /** Every command of `cs` was recorded against the store just before it. */
  predicate Recorded(base: Vars, cs: seq<Command>)
  {
    cs == []
    || (Recorded(base, cs[..|cs| - 1])
        && RecordedAgainst(cs[|cs| - 1], Replay(base, cs[..|cs| - 1])))
  }

  /**
   * The redo stack can be replayed from `vars`: its top command was
   * recorded against `vars`, the one below against the store after that,
   * and so on down the stack.
   */
  predicate Redoable(vars: Vars, redo: seq<Command>)
    decreases |redo|
  {
    redo == []
    || (RecordedAgainst(redo[|redo| - 1], vars)
        && Redoable(Redone(vars, redo[|redo| - 1]), redo[..|redo| - 1]))
  }

  /**
   * `s` lies on one linear timeline that starts at `base`: the undo stack
   * replayed on `base` gives the current variables, every command on it was
   * recorded against the store before it, and the redo stack continues the
   * timeline from the current variables.
   */
  predicate Coherent(s: Store, base: Vars)
  {
    Recorded(base, s.undo) && Replay(base, s.undo) == s.vars && Redoable(s.vars, s.redo)
  }

  lemma ReplayStep(base: Vars, cs: seq<Command>, c: Command)
    ensures Replay(base, cs + [c]) == Redone(Replay(base, cs), c)
    ensures Recorded(base, cs + [c]) <==> Recorded(base, cs) && RecordedAgainst(c, Replay(base, cs))
  {
    assert (cs + [c])[..|cs|] == cs;
  }

  /** A fresh instance lies on the empty timeline from the empty store. */
  lemma FreshCoherent()
    ensures Coherent(Fresh, map[])
  {
  }

  /** Recording a command against the current store keeps the timeline invariant. */
  lemma RecordKeepsCoherent(s: Store, base: Vars, c: Command)
    requires Coherent(s, base) && RecordedAgainst(c, s.vars)
    ensures Coherent(Record(s, c), base)
  {
    ReplayStep(base, s.undo, c);
  }

  lemma SetVarKeepsCoherent(s: Store, base: Vars, name: string, value: string)
    requires Coherent(s, base)
    ensures Coherent(SetVar(s, name, value), base)
  {
    RecordKeepsCoherent(s, base, Set(name, Lookup(s.vars, name), value));
  }

  lemma UnsetVarKeepsCoherent(s: Store, base: Vars, name: string)
    requires Coherent(s, base)
    ensures Coherent(UnsetVar(s, name), base)
  {
    RecordKeepsCoherent(s, base, Unset(name, Lookup(s.vars, name)));
  }

  /**
   * Undo walks one step back along the timeline: the variables become
   * those before the last applied command.
   */
  lemma UndoKeepsCoherent(s: Store, base: Vars)
    requires Coherent(s, base) && s.undo != []
    ensures Coherent(Undo(s), base)
    ensures Undo(s).vars == Replay(base, s.undo[..|s.undo| - 1])
  {
    var init, c := s.undo[..|s.undo| - 1], s.undo[|s.undo| - 1];
    var before := Replay(base, init);
    UndoneInvertsRedone(before, c);
    assert Undo(s).vars == before;
    assert (s.redo + [c])[..|s.redo|] == s.redo;
    RedoneAfterUndone(s.vars, c);
    RedoneIdempotent(before, c);
  }

  /** Redo walks one step forward along the timeline. */
  lemma RedoKeepsCoherent(s: Store, base: Vars)
    requires Coherent(s, base) && s.redo != []
    ensures Coherent(Redo(s), base)
  {
    ReplayStep(base, s.undo, s.redo[|s.redo| - 1]);
  }

  /** On a coherent store, redo right after undo restores the whole store. */
  lemma RedoAfterUndo(s: Store, base: Vars)
    requires Coherent(s, base) && s.undo != []
    ensures Redo(Undo(s)) == s
  {
    var init, c := s.undo[..|s.undo| - 1], s.undo[|s.undo| - 1];
    assert s.undo == init + [c];
    RedoneAfterUndone(s.vars, c);
    RedoneIdempotent(Replay(base, init), c);
    assert (s.redo + [c])[..|s.redo|] == s.redo;
  }

  /** On a coherent store, undo right after redo restores the whole store. */
  lemma UndoAfterRedo(s: Store, base: Vars)
    requires Coherent(s, base) && s.redo != []
    ensures Undo(Redo(s)) == s
  {
    var c := s.redo[|s.redo| - 1];
    assert s.redo == s.redo[..|s.redo| - 1] + [c];
    UndoneInvertsRedone(s.vars, c);
    assert (s.undo + [c])[..|s.undo|] == s.undo;
  }

  /** Undo and redo move one command between the stacks; none is copied or lost. */
  lemma UndoRedoMoveCommands(s: Store)
    ensures multiset(Undo(s).undo) + multiset(Undo(s).redo) == multiset(s.undo) + multiset(s.redo)
    ensures multiset(Redo(s).undo) + multiset(Redo(s).redo) == multiset(s.undo) + multiset(s.redo)
  {
    if s.undo != [] {
      assert s.undo == s.undo[..|s.undo| - 1] + [s.undo[|s.undo| - 1]];
    }
    if s.redo != [] {
      assert s.redo == s.redo[..|s.redo| - 1] + [s.redo[|s.redo| - 1]];
    }
  }

  // ---------------------------------------------------------------------
  // Several undos and redos in a row

  /** `k` undos in a row. */
  function UndoTimes(s: Store, k: nat): Store
    decreases k
  {
    if k == 0 then s else UndoTimes(Undo(s), k - 1)
  }

  /** `k` redos in a row. */
  function RedoTimes(s: Store, k: nat): Store
  {
    if k == 0 then s else Redo(RedoTimes(s, k - 1))
  }

  /**
   * `k` undos on a coherent store walk back along its timeline: they bring
   * back the store as it was before the last `k` commands of the undo stack.
   */
  lemma {:induction false} UndoTimesRewinds(s: Store, base: Vars, k: nat)
    requires Coherent(s, base) && k <= |s.undo|
    ensures Coherent(UndoTimes(s, k), base)
    ensures UndoTimes(s, k).undo == s.undo[..|s.undo| - k]
    ensures UndoTimes(s, k).vars == Replay(base, s.undo[..|s.undo| - k])
    decreases k
  {
    if k == 0 {
      assert UndoTimes(s, k) == s;
      assert s.undo[..|s.undo|] == s.undo;
    } else {
      var u := Undo(s);
      UndoKeepsCoherent(s, base);
      UndoTimesRewinds(u, base, k - 1);
      var t := UndoTimes(u, k - 1);
      assert UndoTimes(s, k) == t;
      assert u.undo == s.undo[..|s.undo| - 1];
      assert u.undo[..|u.undo| - (k - 1)] == s.undo[..|s.undo| - k];
    }
  }

  /** `k` redos after `k` undos restore the whole store, stacks included. */
  lemma {:induction false} RedoTimesAfterUndoTimes(s: Store, base: Vars, k: nat)
    requires Coherent(s, base) && k <= |s.undo|
    ensures RedoTimes(UndoTimes(s, k), k) == s
    decreases k
  {
    if k == 0 {
      assert UndoTimes(s, k) == s;
    } else {
      var u := Undo(s);
      UndoKeepsCoherent(s, base);
      RedoTimesAfterUndoTimes(u, base, k - 1);
      assert UndoTimes(s, k) == UndoTimes(u, k - 1);
      RedoAfterUndo(s, base);
    }
  }

  // ---------------------------------------------------------------------
  // Sequences of mutations

  /** A valid `set` or `unset` request. */
  datatype Mutation = SetOp(name: string, value: string) | UnsetOp(name: string)

  function Mutate(s: Store, m: Mutation): Store
  {
    match m
    case SetOp(name, value) => SetVar(s, name, value)
    case UnsetOp(name) => UnsetVar(s, name)
  }

  /** The mutations `ms` performed in order. */
  function MutateAll(s: Store, ms: seq<Mutation>): Store
  {
    if ms == [] then s else Mutate(MutateAll(s, ms[..|ms| - 1]), ms[|ms| - 1])
  }

  /** Mutations keep the timeline invariant, and after any of them the redo stack is empty. */
  lemma {:induction false} MutateAllKeepsCoherent(s: Store, base: Vars, ms: seq<Mutation>)
    requires Coherent(s, base)
    ensures Coherent(MutateAll(s, ms), base)
    ensures ms != [] ==> MutateAll(s, ms).redo == []
  {
    if ms != [] {
      var init := MutateAll(s, ms[..|ms| - 1]);
      MutateAllKeepsCoherent(s, base, ms[..|ms| - 1]);
      match ms[|ms| - 1]
      case SetOp(name, value) => SetVarKeepsCoherent(init, base, name, value);
      case UnsetOp(name) => UnsetVarKeepsCoherent(init, base, name);
    }
  }

  /** A mutation keeps the undo stack below and pushes one command on top. */
  lemma MutatePushesOne(s: Store, m: Mutation)
    ensures |Mutate(s, m).undo| == |s.undo| + 1
    ensures Mutate(s, m).undo[..|s.undo|] == s.undo
  {
    var c := Mutate(s, m).undo[|s.undo|];
    assert Mutate(s, m).undo == s.undo + [c];
  }

  /**
   * Each mutation pushes exactly one command, so the undo stack after the
   * first `j` mutations is a prefix of the undo stack after all of them.
   */
  lemma {:induction false} MutateAllUndoPrefix(s: Store, ms: seq<Mutation>, j: nat)
    requires j <= |ms|
    ensures |MutateAll(s, ms).undo| == |s.undo| + |ms|
    ensures MutateAll(s, ms).undo[..|s.undo| + j] == MutateAll(s, ms[..j]).undo
  {
    if ms == [] {
      assert ms[..j] == ms;
    } else {
      var n := |ms|;
      var init := MutateAll(s, ms[..n - 1]);
      MutateAllUndoPrefix(s, ms[..n - 1], if j < n then j else 0);
      assert MutateAll(s, ms) == Mutate(init, ms[n - 1]);
      MutatePushesOne(init, ms[n - 1]);
      var u, b := MutateAll(s, ms).undo, init.undo;
      if j == n {
        assert ms[..j] == ms;
        assert u[..|u|] == u;
      } else {
        assert u[..|s.undo| + j] == b[..|s.undo| + j];
        assert ms[..n - 1][..j] == ms[..j];
      }
    }
  }

  /**
   * After any sequence of `set`/`unset` requests, `k` undos (no more than
   * there were requests) leave the variables as they were before the last
   * `k` requests, and `k` redos then restore the state reached after them.
   */
  lemma UndoLastMutations(s: Store, base: Vars, ms: seq<Mutation>, k: nat)
    requires Coherent(s, base) && k <= |ms|
    ensures UndoTimes(MutateAll(s, ms), k).vars == MutateAll(s, ms[..|ms| - k]).vars
    ensures RedoTimes(UndoTimes(MutateAll(s, ms), k), k) == MutateAll(s, ms)
  {
    var t, earlier := MutateAll(s, ms), MutateAll(s, ms[..|ms| - k]);
    MutateAllKeepsCoherent(s, base, ms);
    MutateAllKeepsCoherent(s, base, ms[..|ms| - k]);
    MutateAllUndoPrefix(s, ms, |ms| - k);
    assert t.undo[..|t.undo| - k] == earlier.undo;
    UndoTimesRewinds(t, base, k);
    RedoTimesAfterUndoTimes(t, base, k);
  }

  /** The same from a fresh instance. */
  lemma UndoLastMutationsFromFresh(ms: seq<Mutation>, k: nat)
    requires k <= |ms|
    ensures UndoTimes(MutateAll(Fresh, ms), k).vars == MutateAll(Fresh, ms[..|ms| - k]).vars
    ensures RedoTimes(UndoTimes(MutateAll(Fresh, ms), k), k) == MutateAll(Fresh, ms)
  {
    UndoLastMutations(Fresh, map[], ms, k);
  }

  /** A new mutation empties the redo stack, so a redo after it changes nothing. */
  lemma MutationBlocksRedo(s: Store, m: Mutation)
    ensures Redo(Mutate(s, m)) == Mutate(s, m)
  {
  }
}

=== FILE: queries.dfy ===
/**
 * The read-only request handlers: point lookup, equality count and full
 * listing. None of them consults or changes the command history.
 */
module Queries {
  import opened Wrappers
  import opened Requests
  import opened Variables

  /** `get`: the current value of the named variable, or None when unset. */
  function Get(vars: Vars, name: Option<string>): (r: Result<Option<string>, Fault>)
    ensures r.Failure? <==> !Given(name)
    ensures r.Failure? ==> r.error == MissingName
    ensures r.Success? ==> (r.value.Some? <==> name.value in vars)
    ensures r.Success? && r.value.Some? ==> r.value.value == vars[name.value]
  {
    if !Given(name) then Failure(MissingName) else Success(Lookup(vars, name.value))
  }

  /** `numequalto`: how many variables currently hold exactly the given value. */
  function NumEqualTo(vars: Vars, value: Option<string>): (r: Result<nat, Fault>)
    ensures r.Failure? <==> !Given(value)
    ensures r.Failure? ==> r.error == MissingValue
    ensures r.Success? ==> r.value <= |vars|
    ensures r.Success? ==> (r.value == 0 <==> forall name :: Lookup(vars, name) != value)
  {
    if !Given(value) then Failure(MissingValue) else Success(Count(vars, value.value))
  }

  /** `list`: a snapshot of every variable and its value. */
  function List(vars: Vars): (r: map<string, string>)
    ensures forall name :: Lookup(r, name) == Lookup(vars, name)
    ensures forall name :: Given(Some(name)) ==> Get(vars, Some(name)) == Success(Lookup(r, name))
  {
    map name | name in vars :: vars[name]
  }
}

=== FILE: requests.dfy ===
/**
 * Validation of request arguments. A query argument is either missing
 * (None) or a string; the handlers reject a missing or empty name before
 * anything touches the store.
 */
module Requests {
  import opened Wrappers

  /** Why a request was rejected; a rejected request changes nothing. */
  datatype Fault =
    | MissingNameOrValue  // set: no name, empty name, or no value
    | MissingName         // get, unset: no name or empty name
    | MissingValue        // numequalto: no value or empty value

  /** An argument that is present and not the empty string. */
  predicate Given(arg: Option<string>)
    ensures Given(arg) <==> arg != None && arg != Some("")
  {
    arg.Some? && arg.value != ""
  }
}

=== FILE: scenarios.dfy ===
/**
 * Clients of VariableStore that follow and extend the request sequences
 * of the repository's tests; each runs on a fresh instance and states the
 * replies the tests expect. Rejections has no test counterpart, and
 * UndoRedoAfterEnd and RedoAfterNewSet add requests of their own.
 */
module Scenarios {
  import opened Wrappers
  import opened Requests
  import opened Variables
  import opened Queries
  import opened Engine

  /** `set testvar 42` then `get testvar`. */
  method SetThenGet() returns (setReply: Reply, got: Result<Option<string>, Fault>)
    ensures setReply == Assigned("testvar", Some("42"))
    ensures got == Success(Some("42"))
  {
    var store := new VariableStore();
    setReply := store.Set(Some("testvar"), Some("42"));
    got := Get(store.vars, Some("testvar"));
  }

  /** `set toDelete deleteMe`, `unset toDelete`, then `get toDelete`. */
  method SetUnsetGet() returns (unsetReply: Reply, got: Result<Option<string>, Fault>)
    ensures unsetReply == Assigned("toDelete", None)
    ensures got == Success(None)
  {
    var store := new VariableStore();
    var _ := store.Set(Some("toDelete"), Some("deleteMe"));
    unsetReply := store.Unset(Some("toDelete"));
    got := Get(store.vars, Some("toDelete"));
  }

  /** `set a 10`, `set b 10`, then `numequalto 10`. */
  method CountTwo() returns (count: Result<nat, Fault>)
    ensures count == Success(2)
  {
    var store := new VariableStore();
    var _ := store.Set(Some("a"), Some("10"));
    var afterA := store.vars;
    assert afterA == Assign(map[], "a", Some("10"));
    CountAssign(map[], "a", Some("10"), "10");
    var _ := store.Set(Some("b"), Some("10"));
    assert store.vars == Assign(afterA, "b", Some("10"));
    CountAssign(afterA, "b", Some("10"), "10");
    count := NumEqualTo(store.vars, Some("10"));
  }

  /** `set x 100`, `unset x`, then `undo` and `redo`. */
  method UndoThenRedo() returns (undoReply: Reply, redoReply: Reply)
    ensures undoReply == Assigned("x", Some("100"))
    ensures redoReply == Assigned("x", None)
  {
    var store := new VariableStore();
    var _ := store.Set(Some("x"), Some("100"));
    var _ := store.Unset(Some("x"));
    undoReply := store.Undo();
    redoReply := store.Redo();
  }

  /** `end`, then `undo` and `redo`: both find nothing to do. */
  method UndoRedoAfterEnd() returns (undoReply: Reply, redoReply: Reply)
    ensures undoReply == NoCommands && redoReply == NoCommands
  {
    var store := new VariableStore();
    var _ := store.Set(Some("y"), Some("1"));
    var _ := store.End();
    undoReply := store.Undo();
    redoReply := store.Redo();
  }

  /** `set z 1`, `undo`, `set z 999`, then `redo`: the new SET blocked the redo. */
  method RedoAfterNewSet() returns (redoReply: Reply, got: Result<Option<string>, Fault>)
    ensures redoReply == NoCommands
    ensures got == Success(Some("999"))
  {
    var store := new VariableStore();
    var _ := store.Set(Some("z"), Some("1"));
    var _ := store.Undo();
    var _ := store.Set(Some("z"), Some("999"));
    redoReply := store.Redo();
    got := Get(store.vars, Some("z"));
  }

  /** Requests with a missing or empty argument are rejected. */
  method Rejections() returns (setReply: Reply, unsetReply: Reply, got: Result<Option<string>, Fault>)
    ensures setReply == Rejected(MissingNameOrValue)
    ensures unsetReply == Rejected(MissingName)
    ensures got == Failure(MissingName)
  {
    var store := new VariableStore();
    setReply := store.Set(Some(""), Some("1"));
    unsetReply := store.Unset(None);
    got := Get(store.vars, Some(""));
  }
}

=== FILE: variables.dfy ===
/**
 * The variable store: a finite map from variable name to string value,
 * with the two primitive writes the handlers perform on it (put, delete).
 */
module Variables {
  import opened Wrappers

  type Vars = map<string, string>

  /** The current value of `name`, or None when it has no entry. */
  function Lookup(vars: Vars, name: string): (r: Option<string>)
    ensures r.Some? <==> name in vars
    ensures r.Some? ==> vars[name] == r.value
  {
    if name in vars then Some(vars[name]) else None
  }

  /** Two stores that agree on every lookup are the same store. */
  lemma LookupExtensional(a: Vars, b: Vars)
    requires forall name :: Lookup(a, name) == Lookup(b, name)
    ensures a == b
  {
    assert a.Keys == b.Keys by {
      forall name ensures name in a <==> name in b {
        assert Lookup(a, name) == Lookup(b, name);
      }
    }
    forall name | name in a ensures a[name] == b[name] {
      assert Lookup(a, name) == Lookup(b, name);
    }
  }

  /**
   * Puts `v` under `name`, or deletes `name` when `v` is None; a delete
   * of an absent name leaves the store as it was.
   */
  function Assign(vars: Vars, name: string, v: Option<string>): (r: Vars)
    ensures Lookup(r, name) == v
    ensures forall other :: other != name ==> Lookup(r, other) == Lookup(vars, other)
  {
    if v.None? then vars - {name} else vars[name := v.value]
  }

  /** The names whose current value is exactly `v`. */
  function Holding(vars: Vars, v: string): (names: set<string>)
    ensures forall name :: name in names <==> Lookup(vars, name) == Some(v)
  {
    set name | name in vars && vars[name] == v
  }

  /** The number of variables whose current value equals `v` exactly. */
  function Count(vars: Vars, v: string): (n: nat)
    ensures n <= |vars|
    ensures n == 0 <==> forall name :: Lookup(vars, name) != Some(v)
  {
    var names := Holding(vars, v);
    SubsetCard(names, vars.Keys);
    assert names == {} <==> forall name :: name !in names;
    |names|
  }

  lemma SubsetCard(a: set<string>, b: set<string>)
    requires a <= b
    ensures |a| <= |b|
  {
    assert b == a + (b - a);
  }

  /** After one write, the names holding `v` are the others that held it, plus `name` if it now holds `v`. */
  lemma HoldingAssign(vars: Vars, name: string, w: Option<string>, v: string)
    ensures Holding(Assign(vars, name, w), v)
         == (Holding(vars, v) - {name}) + (if w == Some(v) then {name} else {})
  {
  }

  /**
   * How one write moves the count of a value: the name stops counting if
   * it held `v` and starts counting if it now holds `v`.
   */
  lemma CountAssign(vars: Vars, name: string, w: Option<string>, v: string)
    ensures Count(Assign(vars, name, w), v)
         == Count(vars, v)
            - (if Lookup(vars, name) == Some(v) then 1 else 0)
            + (if w == Some(v) then 1 else 0)
  {
    var before := Holding(vars, v);
    var rest := before - {name};
    HoldingAssign(vars, name, w, v);
    assert |before| == |rest| + (if name in before then 1 else 0) by {
      if name in before {
        assert before == rest + {name};
      }
    }
    var after := Holding(Assign(vars, name, w), v);
    assert |after| == |rest| + (if w == Some(v) then 1 else 0) by {
      if w == Some(v) {
        assert after == rest + {name};
      } else {
        assert after == rest;
      }
    }
  }
}

=== FILE: wrappers.dfy ===
/** Optional values and results with an error case. */
module Wrappers {

  datatype Option<+T> = None | Some(value: T)

  datatype Result<+T, +E> = Success(value: T) | Failure(error: E)
}
